=== FILE: README.md ===
# Genesis Plus GX front end for the MD Studio editor — a Dafny model

This project models the SDL2 front end `mdstudio/sdl2/genspluxgx.c`. It is
the layer through which the MD Studio editor drives an embedded Genesis Plus
GX emulator. The model covers:

- **Audio sample buffer** (`AudioBuffer`). The producer is `sdl_sound_update`. It
  appends each rendered frame's 16-bit samples as little-endian bytes to a
  163 840-byte buffer. The consumer is the device callback `sdl_sound_callback`.
  It hands out the oldest `len` bytes, or silence on underrun. Its desync loop
  then drops whole requests until at most two are queued, and it moves the
  newest bytes to the front. The byte loops are also written as methods and
  proved equal to the functional definitions.
- **Frame governor** (`FrameGovernor`). The periodic timer
  `sdl_sync_timer_callback` posts one semaphore unit per tick. Every 50 (PAL)
  or 20 (NTSC) ticks it pushes an FPS event and restarts its counters. Ticks
  do nothing while the debugger is paused. The timer period is set in
  `InitSystem`. `Update` takes one unit every third frame.
- **Debugger commands** (`DebugRequests`). This covers `AddBreakpoint`,
  `ClearBreakpoint`, `ClearBreakpoints`, `StepInto`, `Resume`, `Break` and
  `IsDebugging`. `AddBreakpoint` and `ClearBreakpoint` fill the shared
  breakpoint block; the other commands leave it alone. Every command except
  `IsDebugging` sends one request. The three breakpoint commands force the
  request when the front end is not running, while `StepInto`, `Resume` and
  `Break` never force it. `IsDebugging` sends nothing. Sent requests are kept
  in a log. The breakpoint table that the request types describe is given as
  an interpretation of that log.
- **One editor tick** (`MainLoop.Update`). While paused, it processes requests
  and returns 0. Otherwise it handles one event, renders a frame, queues its
  audio, waits on the governor when due, processes requests, and returns the
  running flag. A breakpoint hit while rendering cuts the call short: the
  requests are processed and 0 is returned, with no frame counted, no audio
  queued and no wait.
- **Mega CD backup RAM** (`BackupRam`). A region is formatted when it ends
  with the signature half of `brm_format`. `InitSystem` formats unformatted
  regions: the internal RAM clears 0x200 bytes and the cartridge RAM clears
  its whole area. Formatting writes the region's size into the table's size
  fields, and those values persist. `SaveMcdBram` writes a region's file only
  when the region is formatted.
- **Boot ROM** (`BootRom`). `Init` reads at most 2 KB over a 0xFF fill,
  recognises "GENESIS OS" at 0x120, and swaps the bytes of each 16-bit word.
- **Viewport rectangles** (`Viewport`). These are the clipping and centring
  arithmetic of `sdl_video_update`.
- **Editor queries** (`EditorQueries`). These are `GetZ80Reg` and the key
  mapping table (`SetInputMapping`, `GetInputMapping`).

`Bytes` holds the byte type, `Option` and zero/fill sequences. `Arith` holds
the division facts the counters rely on.

Notes on the C semantics:

- C `unsigned`/`Uint32` counters wrap modulo 2^32.
- `>> 8` and `& 0xff` on a possibly negative `int` are written as floor
  division and Euclidean remainder. These agree with an arithmetic shift and a
  two's-complement mask.
- Viewport borders may be negative (the Game Gear view crops the line), but
  the bordered sizes are not. Every difference the viewport code divides by
  2 is non-negative, so C's truncating division agrees with Dafny's there.

## Model

| member | source | states |
|---|---|---|
| AudioBuffer.Init | mdstudio/sdl2/genspluxgx.c:153-161 | the buffer has 2048·2·2·20 = 163 840 bytes, all zero, and nothing is queued |
| AudioBuffer.DecodeEncode | mdstudio/sdl2/genspluxgx.c:174-181 | the device's little-endian reading of the stored bytes gives back exactly the frame's samples |
| AudioBuffer.EncodeDecode | mdstudio/sdl2/genspluxgx.c:142-145 | every even-length byte stream is the encoding of its decoded samples (the 16-bit format loses nothing) |
| AudioBuffer.Produce | mdstudio/sdl2/genspluxgx.c:165-184 | when disabled nothing changes; when enabled the count grows by 2 bytes per sample, the frame's bytes land at the write offset, every other byte is kept, and the write offset stays equal to the count |
| AudioBuffer.ProduceInPlace | mdstudio/sdl2/genspluxgx.c:174-182 | the short-by-short copy loop computes exactly Produce |
| AudioBuffer.Drain | mdstudio/sdl2/genspluxgx.c:121-124 | the desync loop removes at least one request and leaves at most two queued; it removes more than one only while more than one stays queued |
| AudioBuffer.DrainClosedForm | mdstudio/sdl2/genspluxgx.c:121-124 | the loop subtracts a whole number k ≥ 1 of requests, with k = 1 up to three requests queued and k = (count − len − 1) / len above that |
| AudioBuffer.DrainLoop | mdstudio/sdl2/genspluxgx.c:122-124 | the do-while loop terminates with Drain's count |
| AudioBuffer.ShiftToFront | mdstudio/sdl2/genspluxgx.c:125-127 | the forward copy moves the n bytes starting at `from` to the front and keeps every byte from n on |
| AudioBuffer.Consume | mdstudio/sdl2/genspluxgx.c:114-130 | on underrun it gives `len` zero bytes and changes nothing; otherwise it gives the first `len` bytes, reduces the count as Drain does, moves the newest remaining bytes to the front, and keeps the write offset equal to the count |
| AudioBuffer.ConsumeInPlace | mdstudio/sdl2/genspluxgx.c:114-130 | the callback's copy, loop and move together compute Consume |
| AudioBuffer.ProduceAppends | mdstudio/sdl2/genspluxgx.c:175-181 | the queued bytes after a frame are the queued bytes before it followed by the frame's encoding |
| AudioBuffer.ConsumeKeepsNewest | mdstudio/sdl2/genspluxgx.c:119-129 | a pull hands out the head of the queue and keeps a suffix of it; with up to three requests queued the handed-out and kept bytes together are exactly the old queue |
| AudioBuffer.FrameRoundTrip | mdstudio/sdl2/genspluxgx.c:114-184 | one frame queued on an empty buffer and pulled whole reaches the device as the same samples, and the buffer is empty again |
| FrameGovernor.TimerPeriodMs | mdstudio/sdl2/genspluxgx.c:1297-1299 | one timer period lasts exactly three video frames of the region (60 ms at 50 Hz, 50 ms at 60 Hz) |
| FrameGovernor.Threshold | mdstudio/sdl2/genspluxgx.c:379 | one reporting period lasts 3 s on PAL and 1 s on NTSC |
| FrameGovernor.FpsCode | mdstudio/sdl2/genspluxgx.c:385 | the reported code is the frame count divided by the period's length in seconds, rounded down |
| FrameGovernor.Init | mdstudio/sdl2/genspluxgx.c:407-408 | the semaphore starts at 0, the tick counter at 0 and the frame counter at 0 (the last is set by `sdl_video_init` at line 229), with no events |
| FrameGovernor.TimerTick | mdstudio/sdl2/genspluxgx.c:371-397 | while paused nothing changes; otherwise one unit is posted and the tick is counted; at the threshold one FPS event is pushed and the ticks and frames restart at 0; the tick counter stays below the threshold |
| FrameGovernor.PausedTicksIdle | mdstudio/sdl2/genspluxgx.c:373-375 | any number of ticks while paused leave the governor unchanged, so there is no catching up after a pause |
| FrameGovernor.RunningTicksReport | mdstudio/sdl2/genspluxgx.c:377-388 | after n running ticks, n units have been posted; the tick count is the remainder and the number of new reports is the quotient of ticks + n by the threshold |
| FrameGovernor.TickCounts | mdstudio/sdl2/genspluxgx.c:378-388 | one running tick advances the remainder and the quotient of a counter by the threshold by one step |
| FrameGovernor.FrameRendered | mdstudio/sdl2/genspluxgx.c:349 | the frame counter goes up by one modulo 2^32 and nothing else changes |
| FrameGovernor.Wait | mdstudio/sdl2/genspluxgx.c:1213-1216 | an available unit is taken at once; otherwise the next tick happens first and its unit is taken |
| DebugRequests.Send | mdstudio/sdl2/genspluxgx.c:1066 | a request goes out with the shared block's current payload; earlier requests are kept |
| DebugRequests.AddBreakpoint | mdstudio/sdl2/genspluxgx.c:1050-1068 | the block holds an enabled zero-width 68000 execution breakpoint at the address, and one add request carrying it is sent, forced iff not running |
| DebugRequests.ClearBreakpoint | mdstudio/sdl2/genspluxgx.c:1070-1084 | only the block's address and kind are rewritten; enabled and width keep their old values; one delete request is sent, forced iff not running |
| DebugRequests.ClearBreakpoints | mdstudio/sdl2/genspluxgx.c:1086-1096 | the block is untouched and one clear request is sent, forced iff not running |
| DebugRequests.StepInto | mdstudio/sdl2/genspluxgx.c:1114-1126 | a paused core gets a step request and a running one a pause request; the request carries the shared block's payload, is not forced, and the block itself is unchanged |
| DebugRequests.Resume | mdstudio/sdl2/genspluxgx.c:1128-1132 | one unforced resume request is sent |
| DebugRequests.Break | mdstudio/sdl2/genspluxgx.c:1134-1138 | one unforced pause request is sent |
| DebugRequests.IsDebugging | mdstudio/sdl2/genspluxgx.c:1140-1143 | true exactly when the core is paused and the front end is running |
| DebugRequests.Apply | mdstudio/sdl2/genspluxgx.c:1050-1138 | add stores the payload under its key, overwriting any earlier entry; delete takes the key out; clear empties the table; run control leaves it alone; no other key changes and no other key appears |
| DebugRequests.ApplyAllAppend | mdstudio/sdl2/genspluxgx.c:1050-1138 | applying a log followed by one more request is applying that request to the log's table |
| DebugRequests.AddThenClearRestores | mdstudio/sdl2/genspluxgx.c:1050-1084 | adding a breakpoint at a fresh address and clearing it again leaves the table as it was |
| DebugRequests.ClearEmptiesTable | mdstudio/sdl2/genspluxgx.c:1086-1096 | after ClearBreakpoints the table is empty |
| DebugRequests.RunControlKeepsTable | mdstudio/sdl2/genspluxgx.c:1114-1138 | step, resume and break never change the breakpoint table |
| MainLoop.ControlUpdate | mdstudio/sdl2/genspluxgx.c:438-615 | it keeps running iff the key code is not Escape, and resets iff it is Tab |
| MainLoop.HandleEvent | mdstudio/sdl2/genspluxgx.c:1184-1208 | a user event sets the caption and changes nothing else; Quit and Escape stop; any other key keeps running; Tab resets once; no event, or any other event, changes nothing; audio, governor and the sound, turbo and semaphore flags are never touched |
| MainLoop.Update | mdstudio/sdl2/genspluxgx.c:1167-1221 | paused: requests are processed, 0 is returned and nothing else changes; running: running flag, caption and resets are those the event leaves, and the sound, turbo and semaphore flags are kept; a call cut short by a breakpoint returns 0 without counting a frame, queuing audio or waiting; a completed call returns 0 iff Quit or Escape, else 1 and still running; it waits iff not turbo, the semaphore exists and the new frame count is a multiple of 3; the frame is counted, its audio queued, and the governor is exactly the frame counted and then, when due, one wait |
| MainLoop.DebuggingAfterUpdate | mdstudio/sdl2/genspluxgx.c:1140-1143 | after a call that completed its frame, the editor sees the debugger active iff the core is paused and the call returned 1 |
| MainLoop.TrapReportsDebugging | mdstudio/sdl2/genspluxgx.c:1174-1182 | a call cut short by a breakpoint returns 0 while the front end stays running, so the editor sees the debugger active |
| MainLoop.PausedUpdatesIdle | mdstudio/sdl2/genspluxgx.c:1169-1180 | any number of paused ticks render nothing, queue nothing and leave the governor alone; only requests are processed |
| MainLoop.UpdateQueuesAudio | mdstudio/sdl2/genspluxgx.c:1210-1211 | with sound on, a running tick appends exactly the frame's encoded samples to the audio queue |
| BackupRam.TableBytes | mdstudio/sdl2/genspluxgx.c:103-109 | the 0x40-byte format table is the underscore header, the high and low size byte repeated in the four 16-bit fields at 0x10..0x17, eight zero bytes, and the "SEGA_CD_ROM…RAM_CARTRIDGE___" signature, which is the same whatever the size bytes are |
| BackupRam.IsFormatted | mdstudio/sdl2/genspluxgx.c:1242 | a region counts as formatted iff its last 0x20 bytes equal bytes 0x20..0x40 of the format table, for every value the table's size fields can hold; the same test is made at :1266, :1326 and :1339 |
| BackupRam.FormatRegion | mdstudio/sdl2/genspluxgx.c:1241-1253 | afterwards the region is formatted; a formatted region and the table are left alone; otherwise the leading bytes are zeroed, the bytes up to the table are kept, the new size bytes go into the table, and the table is written over the last 0x40 bytes |
| BackupRam.ClearAndStamp | mdstudio/sdl2/genspluxgx.c:1245-1252 | the clear then the copy leave zeros in front, the old bytes in between, the table at the end, and a formatted region |
| BackupRam.FormatInternal | mdstudio/sdl2/genspluxgx.c:1241-1253 | the internal RAM ends up formatted and a formatted one is left alone; when it was not, it becomes 0x200 zero bytes, its own bytes 0x200..0x1FC0, and the table with size bytes 0x00 0x7d (125 = 8192 / 64 − 3) |
| BackupRam.InternalSizeBytes | mdstudio/sdl2/genspluxgx.c:1248-1249 | the size value of the 8 KB internal RAM splits into the bytes 0x00 and 0x7d |
| BackupRam.FormatCartridge | mdstudio/sdl2/genspluxgx.c:1265-1277 | the cartridge RAM ends up formatted; when it was not, it is all zero except the trailing table, which holds the high and low byte of size / 64 − 3 |
| BackupRam.FormatIdempotent | mdstudio/sdl2/genspluxgx.c:1241-1253 | formatting a region twice is the same as formatting it once |
| BackupRam.InitBackup | mdstudio/sdl2/genspluxgx.c:1229-1279 | on a Mega CD the internal RAM becomes what the internal format block makes of it, then a present cartridge RAM what the cartridge block makes of it under the table the first block left; the table ends as the last block leaves it; both regions are formatted afterwards, and one that was already formatted keeps its contents; on other hardware nothing changes |
| BackupRam.SaveMcdBram | mdstudio/sdl2/genspluxgx.c:1320-1350 | only a Mega CD writes; the internal file is written iff the internal RAM is formatted and the cartridge file iff the cartridge RAM is present and formatted, each with that region's bytes |
| BackupRam.InitThenSaveWritesAll | mdstudio/sdl2/genspluxgx.c:1229-1349 | after start-up formatting a Mega CD saves every region it has |
| BackupRam.StartupTable | mdstudio/sdl2/genspluxgx.c:1241-1277 | starting from the table's all-zero size fields, start-up leaves them zero when no region needed formatting, 0x00 0x7d when only the internal RAM did, and the cartridge's size bytes when the cartridge RAM did |
| BootRom.ByteSwapInvolution | mdstudio/sdl2/genspluxgx.c:1405-1411 | swapping the bytes of every word twice gives back the image |
| BootRom.ByteSwapInPlace | mdstudio/sdl2/genspluxgx.c:1405-1411 | the exchange loop swaps the two bytes of every 16-bit word |
| BootRom.ReadImage | mdstudio/sdl2/genspluxgx.c:1388-1395 | the 2 KB image holds the file's bytes where the file has them and 0xFF after that |
| BootRom.LoadBootRom | mdstudio/sdl2/genspluxgx.c:1387-1412 | without a file the ROM is all 0xFF and no BIOS is marked; with one, the BIOS is marked iff the file holds "GENESIS OS" at 0x120, and undoing the swap gives the read image |
| BootRom.SignatureNeedsFileBytes | mdstudio/sdl2/genspluxgx.c:1399 | the signature test on the filled image succeeds exactly when the file itself holds all ten bytes |
| Viewport.ClipSpan | mdstudio/sdl2/genspluxgx.c:281-294 | the kept length is the line length capped by the screen, and it is taken from the middle of the line, within one pixel |
| Viewport.Centre | mdstudio/sdl2/genspluxgx.c:299-300 | the rectangle fits on the screen and is centred within one pixel |
| Viewport.ComputeLayout | mdstudio/sdl2/genspluxgx.c:281-300 | for any borders, negative ones included, that leave a non-negative bordered size, the source lies inside the bordered bitmap and is centred in it within one pixel, and the destination has the source's size, fits on the surface and is centred on it |
| Viewport.UpdateLayout | mdstudio/sdl2/genspluxgx.c:277-279 | bit 0 of the flag is cleared and nothing else in it changes; the layout is recomputed iff that bit was set |
| Viewport.GameGearLayout | mdstudio/sdl2/genspluxgx.c:281-300 | a 256×192 view with borders −48 and −24 on a 640×480 surface shows a 160×144 source from the bitmap origin, centred at (240, 168) |
| EditorQueries.GetZ80Reg | mdstudio/sdl2/genspluxgx.c:952-982 | indices 0..11 read af, bc, de, hl, their shadows, ix, iy, sp and pc in that order; any other index reads 0 |
| EditorQueries.DefaultTableValid | mdstudio/sdl2/genspluxgx.c:49-63 | the initial table has one row per pad input, in input order |
| EditorQueries.GetInputMapping | mdstudio/sdl2/genspluxgx.c:1022-1025 | in a table whose rows follow the input order, it reads the key of the row that drives the input\'s button |
| EditorQueries.SetInputMapping | mdstudio/sdl2/genspluxgx.c:1017-1025 | the rebound input then reads back the new key, every other input reads back its old key, and the rows' buttons never move |
| EditorQueries.SetTwice | mdstudio/sdl2/genspluxgx.c:1017-1020 | a second rebinding of the same input replaces the first |

## Left out

- SDL itself is not modelled: windows, surfaces, renderer, audio device, timers, the event queue and the message boxes. Events are a parameter of `Update`. The audio device is the caller of `Consume`.
- Concurrency is not modelled. The timer and audio callbacks run on other threads. `SDL_LockAudio` and the semaphore are modelled as atomic steps, and the unsynchronised access to `frames_rendered` is not modelled.
- FrameGovernor.Wait: a blocking `SDL_SemWait` on an empty semaphore is modelled as the next timer tick followed by taking its unit. A wait while the debugger pauses the timer would block for good, and that is not modelled.
- MainLoop.Update: the `longjmp` back into an earlier `setjmp` frame of `Update` is modelled as its evident intent. A paused call processes requests and returns 0. As written, it jumps into a stack frame that has already returned.
- MainLoop.Update: a breakpoint hit while rendering is an input (`trapped`). The model does not decide when the core hits a breakpoint. It also does not model the partly rendered frame the jump abandons.
- MainLoop.Update: the emulation core is not part of this model. This covers rendering, `audio_update`, `system_reset`, `process_request` and `process_breakpoints`. A frame is the frame counter going up. The mixer's samples are a parameter. Request processing is only counted.
- DebugRequests.Apply: the code that applies requests lives in the core's debugger, which is not part of this model. The table semantics are an interpretation of the request types, not a model of that code.
- The watchpoint, profiler, palette, VRAM, volume and audio-pause entry points, `GetVDPRegisterValue`, `Disassemble`, and `ReadByte`, `ReadWord`, `ReadLong` and `ReadZ80Byte`, are stubs that return constants or do nothing. They are not modelled.
- `ReadMemory` is not modelled. It copies `size` bytes of the core's work RAM, swapping each 16-bit word, and it ignores its `address` argument. The work RAM belongs to the core, which is not part of this model.
- The 68000 register queries (`GetDReg`, `GetAReg`, `GetSR`, `GetCurrentPC`) only forward to the core's `m68k_get_reg`, which is not part of this model.
- EditorQueries.GetInputMapping: the C code does not check its index, so only indices 0..11 are modelled. The same holds for `SetInputMapping`.
- The keyboard and joystick polling (`sdl_input_update`), the hotkeys commented out of `sdl_control_update`, `vc_table` and the `ALT_SDL_RENDERER` build variant are not modelled.
- File I/O is not modelled. Loaded images are inputs, and a save is the list of files written. A short `fread` of a save file is not modelled, and neither is an `fopen` failure on save.
- Failures of `sdl_sound_init` (SDL, device or allocation) are not modelled. The model starts from a successful initialisation.
- AudioBuffer.Produce: the C code does not check the buffer's capacity, so the caller must keep the queue within 163 840 bytes (a precondition). The samples are stored little-endian, as on the x86 targets the editor runs on.
- AudioBuffer.ShiftToFront: the compaction `memcpy` at lines 125-127 copies between overlapping ranges whenever the kept count exceeds the offset it reads from (for example, 3·len queued keeps 2·len bytes read from offset len). Overlapping `memcpy` is undefined in C. The model fixes the front-to-back copy, which gives the `memmove` result because the destination lies below the source. No other copy order is modelled.
- AudioBuffer.Consume: requires `len > 0`. SDL never asks for zero bytes, and with `len == 0` and bytes queued the C desync loop would not terminate.
- The SRAM load and save (`./game.srm`) are not modelled. They are plain file copies with no checks.
- `Init`'s remaining set-up (configuration, shared memory, SDL start-up, window) and `LoadRom` are not modelled. They are calls into code that is not part of this model.

=== FILE: arith.dfy ===
/** Facts about integer division that the counters of the model rely on. */
module Arith {

  lemma MulMonotone(a: int, b: int, d: int)
    requires a <= b && 0 < d
    ensures a * d <= b * d
  {
    assert b * d - a * d == (b - a) * d;
  }

  /** Quotient and remainder are determined by `x == q * d + r` with
      `0 <= r < d`. */
  lemma DivModUnique(x: int, d: int, q: int, r: int)
    requires 0 < d && 0 <= r < d && x == q * d + r
    ensures x / d == q && x % d == r
  {
    var q' := x / d;
    var r' := x % d;
    assert x == q' * d + r' && 0 <= r' < d;
    assert (q' + 1) * d == q' * d + d;
    assert (q + 1) * d == q * d + d;
    if q' < q {
      MulMonotone(q' + 1, q, d);
    } else if q' > q {
      MulMonotone(q + 1, q', d);
    }
  }

  /** Counting one more: the remainder steps up by one, or wraps to 0 and
      the quotient steps up instead. */
  lemma DivModSucc(a: int, d: int)
    requires 0 < d && 0 <= a
    ensures a % d + 1 < d ==> (a + 1) / d == a / d && (a + 1) % d == a % d + 1
    ensures a % d + 1 == d ==> (a + 1) / d == a / d + 1 && (a + 1) % d == 0
  {
    var q := a / d;
    var r := a % d;
    assert a == q * d + r;
    if r + 1 < d {
      DivModUnique(a + 1, d, q, r + 1);
    } else {
      assert a + 1 == (q + 1) * d;
      DivModUnique(a + 1, d, q + 1, 0);
    }
  }

  /** Adding the divisor adds one to the quotient. */
  lemma DivAddDivisor(x: int, d: int)
    requires 0 < d
    ensures (x + d) / d == x / d + 1
  {
    var q := x / d;
    var r := x % d;
    assert x + d == (q + 1) * d + r;
    DivModUnique(x + d, d, q + 1, r);
  }
}

=== FILE: audio_buffer.dfy ===
/** The audio sample buffer shared by the emulation thread (producer) and
    the audio device's pull callback (consumer).

    The C code keeps a heap buffer, a write pointer `current_pos` and a byte
    count `current_emulated_samples`. Here the buffer is a byte sequence of
    fixed length, the write pointer is the offset `current_pos - buffer`, and
    both operations are pure functions from state to state: the audio lock
    taken around each call makes each call atomic. */
module AudioBuffer {
  import opened Bytes
  import Arith

  /** Rate and request size handed to the audio device. */
  const SoundFrequency: nat := 48000
  const SamplesSize: nat := 2048
  /** `sizeof(short)`. */
  const ShortSize: nat := 2
  /** 20 device requests of 2048 stereo 16-bit samples: 163840 bytes. */
  const Capacity: nat := SamplesSize * 2 * ShortSize * 20

  /** A signed 16-bit sample, kept as its bit pattern. */
  type sample = bv16

  /** `writePos` is `current_pos - buffer`, `count` is `current_emulated_samples`. */
  datatype Sound = Sound(buffer: seq<byte>, writePos: int, count: int)

  /** The buffer has its allocated size, holds at most that many queued bytes,
      and the write offset sits right after the last queued byte. */
  predicate Valid(s: Sound)
  {
    && |s.buffer| == Capacity
    && 0 <= s.count <= Capacity
    && s.writePos == s.count
  }

  /** The bytes queued for the device, oldest first. */
  function Pending(s: Sound): seq<byte>
    requires Valid(s)
  {
    s.buffer[..s.count]
  }

  /** State after a successful `sdl_sound_init`: a zeroed buffer of
      Capacity bytes, nothing queued. */
  function Init(): (s: Sound)
    ensures Valid(s)
    ensures |s.buffer| == 163840
    ensures Pending(s) == []
    ensures forall i :: 0 <= i < |s.buffer| ==> s.buffer[i] == 0
  {
    Sound(Zeros(Capacity), 0, 0)
  }

  // ---------------------------------------------------------------------
  // Samples as bytes (AUDIO_S16SYS on a little-endian host)

  /** Byte `i` of the little-endian image of `frame`. */
  function EncodedByte(frame: seq<sample>, i: nat): byte
    requires i < 2 * |frame|
  {
    var x := frame[i / 2];
    if i % 2 == 0 then (x & 0xFF) as byte else (x >> 8) as byte
  }

  /** The bytes that `*out++ = soundframe[i]` stores for a whole frame. */
  function Encode(frame: seq<sample>): (r: seq<byte>)
    ensures |r| == 2 * |frame|
  {
    seq(2 * |frame|, i requires 0 <= i < 2 * |frame| => EncodedByte(frame, i))
  }

  /** Sample `i` of a little-endian byte stream. */
  function DecodedSample(bytes: seq<byte>, i: nat): sample
    requires 2 * i + 1 < |bytes|
  {
    ((bytes[2 * i + 1] as sample) << 8) | (bytes[2 * i] as sample)
  }

  /** The samples the audio device reads back from a byte stream. */
  function Decode(bytes: seq<byte>): (r: seq<sample>)
    ensures |r| == |bytes| / 2
  {
    seq(|bytes| / 2, i requires 0 <= i < |bytes| / 2 => DecodedSample(bytes, i))
  }

  lemma SampleRoundTrip(x: sample)
    ensures ((((x >> 8) as byte) as sample) << 8) | (((x & 0xFF) as byte) as sample) == x
  {
  }

  lemma BytesRoundTrip(lo: byte, hi: byte)
    ensures ((((hi as sample) << 8) | (lo as sample)) & 0xFF) as byte == lo
    ensures ((((hi as sample) << 8) | (lo as sample)) >> 8) as byte == hi
  {
  }

  /** Decoding undoes encoding. */
  lemma DecodeEncode(frame: seq<sample>)
    ensures Decode(Encode(frame)) == frame
  {
    forall i | 0 <= i < |frame|
      ensures Decode(Encode(frame))[i] == frame[i]
    {
      DecodeEncodeAt(frame, i);
    }
  }

  lemma DecodeEncodeAt(frame: seq<sample>, i: nat)
    requires i < |frame|
    ensures DecodedSample(Encode(frame), i) == frame[i]
  {
    EncodedPair(frame, i);
    SampleRoundTrip(frame[i]);
  }

  /** Sample `i` is stored at bytes `2i` (low) and `2i + 1` (high). */
  lemma EncodedPair(frame: seq<sample>, i: nat)
    requires i < |frame|
    ensures Encode(frame)[2 * i] == (frame[i] & 0xFF) as byte
    ensures Encode(frame)[2 * i + 1] == (frame[i] >> 8) as byte
  {
    assert (2 * i) / 2 == i && (2 * i + 1) / 2 == i && (2 * i) % 2 == 0 && (2 * i + 1) % 2 == 1;
  }

  /** Encoding undoes decoding on whole samples. */
  lemma EncodeDecode(bytes: seq<byte>)
    requires |bytes| % 2 == 0
    ensures Encode(Decode(bytes)) == bytes
  {
    var d := Decode(bytes);
    forall i | 0 <= i < |bytes|
      ensures Encode(d)[i] == bytes[i]
    {
      var j := i / 2;
      BytesRoundTrip(bytes[2 * j], bytes[2 * j + 1]);
    }
  }

  // ---------------------------------------------------------------------
  // Produce: sdl_sound_update

  /** Appends one rendered frame (`size` shorts of `soundframe`) when sound
      is enabled; does nothing otherwise. The C code does not check the
      capacity, so the caller must not overfill the buffer. */
  function Produce(s: Sound, frame: seq<sample>, enabled: bool): (r: Sound)
    requires Valid(s)
    requires enabled ==> s.count + 2 * |frame| <= Capacity
    ensures Valid(r)
    ensures !enabled ==> r == s
    ensures enabled ==> r.count == s.count + |frame| * ShortSize
    ensures enabled ==> r.buffer[s.writePos..r.writePos] == Encode(frame)
    ensures enabled ==> r.buffer[..s.writePos] == s.buffer[..s.writePos]
    ensures enabled ==> r.buffer[r.writePos..] == s.buffer[r.writePos..]
  {
    if !enabled then s
    else
      var bytes := Encode(frame);
      var pos := s.writePos;
      Sound(s.buffer[..pos] + bytes + s.buffer[pos + |bytes|..], pos + |bytes|, s.count + |bytes|)
  }

  /** The copy loop of sdl_sound_update, one short (two bytes) per step,
      computes Produce. */
  method ProduceInPlace(s: Sound, frame: seq<sample>, enabled: bool) returns (t: Sound)
    requires Valid(s)
    requires enabled ==> s.count + 2 * |frame| <= Capacity
    ensures t == Produce(s, frame, enabled)
  {
    if !enabled {
      return s;
    }
    var buf := s.buffer;
    var out := s.writePos;
    var i := 0;
    while i < |frame|
      invariant 0 <= i <= |frame|
      invariant out == s.writePos + 2 * i
      invariant |buf| == Capacity
      invariant buf[..s.writePos] == s.buffer[..s.writePos]
      invariant forall j :: 0 <= j < 2 * i ==> buf[s.writePos + j] == EncodedByte(frame, j)
      invariant buf[out..] == s.buffer[out..]
    {
      buf := buf[out := (frame[i] & 0xFF) as byte][out + 1 := (frame[i] >> 8) as byte];
      out := out + 2;
      i := i + 1;
    }
    t := Sound(buf, out, s.count + |frame| * ShortSize);
    var r := Produce(s, frame, enabled);
    assert buf[s.writePos..out] == Encode(frame);
    assert buf == buf[..s.writePos] + buf[s.writePos..out] + buf[out..];
    assert r.buffer == r.buffer[..s.writePos] + r.buffer[s.writePos..out] + r.buffer[out..];
  }

  // ---------------------------------------------------------------------
  // Consume: sdl_sound_callback

  /** The count left by the desync loop
        `do { count -= len; } while (count > 2 * len);`
      It removes at least one request, leaves at most two requests queued,
      and removes more than one only while that leaves more than one queued. */
  function Drain(count: int, len: int): (n: int)
    requires 0 < len <= count
    decreases count
    ensures 0 <= n <= 2 * len
    ensures n <= count - len
    ensures n == count - len || len < n
  {
    var c := count - len;
    if c > 2 * len then Drain(c, len) else c
  }

  /** How many whole requests Drain removes, in closed form. */
  function DrainRounds(count: int, len: int): int
    requires 0 < len <= count
  {
    if count <= 3 * len then 1 else (count - len - 1) / len
  }

  /** Drain subtracts a whole number (at least one) of requests, namely
      DrainRounds of them. */
  lemma {:induction false} DrainClosedForm(count: int, len: int)
    requires 0 < len <= count
    ensures DrainRounds(count, len) >= 1
    ensures Drain(count, len) == count - DrainRounds(count, len) * len
    decreases count
  {
    var c := count - len;
    if c > 2 * len {
      DrainClosedForm(c, len);
      var k := DrainRounds(c, len);
      if c <= 3 * len {
        assert k == 1;
        Arith.DivModUnique(c - 1, len, 2, c - 1 - 2 * len);
      } else {
        Arith.DivAddDivisor(c - len - 1, len);
        assert count - len - 1 == c - len - 1 + len;
      }
      assert DrainRounds(count, len) == k + 1;
      assert Drain(count, len) == c - k * len;
      assert c - k * len == count - (k + 1) * len;
    }
  }

  /** A pull of `len` bytes: the bytes handed to the device, and the new state. */
  datatype Pull = Pull(stream: seq<byte>, sound: Sound)

  /** The audio callback. On underrun it hands out `len` zero bytes and leaves
      the state alone. Otherwise it hands out the oldest `len` bytes, lets
      Drain reduce the count, and moves the newest `count` bytes (those just
      before the write offset) to the front of the buffer.
      `len` is positive: the device never asks for zero bytes, and with
      `len == 0` and bytes queued the C loop would not terminate. */
  function Consume(s: Sound, len: int): (r: Pull)
    requires Valid(s) && 0 < len
    ensures Valid(r.sound)
    ensures |r.stream| == len
    ensures s.count < len ==> r.stream == Zeros(len) && r.sound == s
    ensures s.count >= len ==> r.stream == s.buffer[..len]
    ensures s.count >= len ==> r.sound.count == Drain(s.count, len)
    ensures s.count >= len ==> r.sound.buffer[..r.sound.count] == s.buffer[s.count - r.sound.count..s.count]
    ensures s.count >= len ==> r.sound.buffer[r.sound.count..] == s.buffer[r.sound.count..]
  {
    if s.count < len then
      Pull(Zeros(len), s)
    else
      var n := Drain(s.count, len);
      var from := s.writePos - n;
      Pull(s.buffer[..len], Sound(s.buffer[from..s.writePos] + s.buffer[n..], n, n))
  }

  /** The do-while loop of the callback computes Drain. */
  method DrainLoop(count0: int, len: int) returns (count: int)
    requires 0 < len <= count0
    ensures count == Drain(count0, len)
  {
    count := count0 - len;
    while count > 2 * len
      invariant 0 <= count
      invariant count > 2 * len ==> Drain(count0, len) == Drain(count, len)
      invariant count <= 2 * len ==> Drain(count0, len) == count
      decreases count
    {
      count := count - len;
    }
  }

  /** `memcpy(buf, buf + from, n)` done front to back. The two ranges may
      overlap, which C leaves undefined for `memcpy`; the forward copy is the
      order chosen here. The destination lies below the source, so every
      byte is read before it is overwritten and the result is `memmove`'s. The
      first `n` bytes become the `n` bytes at `from`, the rest stay. */
  method ShiftToFront(buf0: seq<byte>, from: nat, n: nat) returns (buf: seq<byte>)
    requires from + n <= |buf0|
    ensures |buf| == |buf0|
    ensures buf == buf0[from..from + n] + buf0[n..]
  {
    buf := buf0;
    var i := 0;
    while i < n
      invariant 0 <= i <= n
      invariant |buf| == |buf0|
      invariant forall j :: 0 <= j < i ==> buf[j] == buf0[from + j]
      invariant forall j :: i <= j < |buf| ==> buf[j] == buf0[j]
    {
      buf := buf[i := buf[from + i]];
      i := i + 1;
    }
  }

  /** The callback as written computes Consume. */
  method ConsumeInPlace(s: Sound, len: int) returns (stream: seq<byte>, t: Sound)
    requires Valid(s) && 0 < len
    ensures Pull(stream, t) == Consume(s, len)
  {
    if s.count < len {
      stream := Zeros(len);
      t := s;
      return;
    }
    stream := s.buffer[..len];
    var count := DrainLoop(s.count, len);
    var buf := ShiftToFront(s.buffer, s.writePos - count, count);
    t := Sound(buf, count, count);
  }

  // ---------------------------------------------------------------------
  // Properties relating Produce and Consume

  /** Produce appends the frame's bytes to the queue. */
  lemma ProduceAppends(s: Sound, frame: seq<sample>)
    requires Valid(s) && s.count + 2 * |frame| <= Capacity
    ensures Pending(Produce(s, frame, true)) == Pending(s) + Encode(frame)
  {
    var r := Produce(s, frame, true);
    assert r.buffer[..r.count] == r.buffer[..s.count] + r.buffer[s.count..r.count];
  }

  /** Consume hands out the head of the queue, keeps its tail, and what it
      drops lies in between; when at most three requests were queued
      nothing is dropped, so the queue behaves as a FIFO. */
  lemma ConsumeKeepsNewest(s: Sound, len: int)
    requires Valid(s) && 0 < len <= s.count
    ensures var r := Consume(s, len);
      && r.stream == Pending(s)[..len]
      && len <= s.count - r.sound.count
      && Pending(r.sound) == Pending(s)[s.count - r.sound.count..]
      && (s.count <= 3 * len ==> r.stream + Pending(r.sound) == Pending(s))
  {
    var r := Consume(s, len);
    if s.count <= 3 * len {
      assert r.sound.count == s.count - len;
      assert Pending(s) == Pending(s)[..len] + Pending(s)[len..];
    }
  }

  /** A frame produced into an empty buffer and pulled with a request of its
      byte length comes out unchanged, and leaves the buffer empty. */
  lemma FrameRoundTrip(s: Sound, frame: seq<sample>)
    requires Valid(s) && s.count == 0
    requires 0 < |frame| && 2 * |frame| <= Capacity
    ensures var r := Consume(Produce(s, frame, true), 2 * |frame|);
      && Decode(r.stream) == frame
      && Pending(r.sound) == []
  {
    var p := Produce(s, frame, true);
    ProduceAppends(s, frame);
    assert Pending(p) == Encode(frame);
    DecodeEncode(frame);
  }
}

=== FILE: backup_ram.dfy ===
/** Mega CD backup RAM: the signature check, formatting, and which regions
    are saved.

    A region (the 8 KB internal backup RAM or the cartridge backup RAM) is
    formatted when its last 0x20 bytes equal the second half of the format
    table `brm_format`. Formatting writes the table, with the region's size
    stored in its size fields, over the last 0x40 bytes. The table itself is
    a mutable static array: formatting rewrites its size fields and the new
    values persist, so the table is part of the state here. */
module BackupRam {
  import opened Bytes

  const FormatSize: nat := 0x40
  const SignatureSize: nat := 0x20
  const InternalSize: nat := 0x2000
  /** Only this many leading bytes of the internal RAM are cleared. */
  const InternalClearSize: nat := 0x200

  /** Bytes 0x00..0x10 of `brm_format`: eleven '_', then 0x00 0x00 0x00 0x00 0x40. */
  const Header: seq<byte> :=
    [0x5f, 0x5f, 0x5f, 0x5f, 0x5f, 0x5f, 0x5f, 0x5f, 0x5f, 0x5f, 0x5f, 0x00, 0x00, 0x00, 0x00, 0x40]

  /** Bytes 0x20..0x40 of `brm_format`, the signature a formatted region
      ends with: "SEGA_CD_ROM", 0x00 0x01 0x00 0x00 0x00, "RAM_CARTRIDGE___". */
  const Signature: seq<byte> := [
    0x53, 0x45, 0x47, 0x41, 0x5f, 0x43, 0x44, 0x5f, 0x52, 0x4f, 0x4d, 0x00, 0x01, 0x00, 0x00, 0x00,
    0x52, 0x41, 0x4d, 0x5f, 0x43, 0x41, 0x52, 0x54, 0x52, 0x49, 0x44, 0x47, 0x45, 0x5f, 0x5f, 0x5f
  ]

  /** The part of `brm_format` that formatting writes: the high and low
      byte repeated in the four 16-bit size fields at 0x10..0x17. The rest
      of the table is never written, so the table is this pair plus
      constants. Initially all size bytes are 0x00. */
  datatype FormatTable = FormatTable(hi: byte, lo: byte)

  const InitialTable: FormatTable := FormatTable(0x00, 0x00)

  /** The 0x40 bytes of `brm_format` for a given pair of size bytes. */
  function TableBytes(t: FormatTable): (b: seq<byte>)
    ensures |b| == FormatSize
    ensures b[..0x10] == Header
    ensures b[0x10..0x18] == [t.hi, t.lo, t.hi, t.lo, t.hi, t.lo, t.hi, t.lo]
    ensures b[0x18..SignatureSize] == Zeros(8)
    ensures b[SignatureSize..] == Signature
  {
    var sizes := [t.hi, t.lo, t.hi, t.lo, t.hi, t.lo, t.hi, t.lo];
    var b := Header + sizes + Zeros(8) + Signature;
    assert b[0x10..0x18] == sizes;
    assert b[0x18..SignatureSize] == Zeros(8);
    b
  }

  /** The check of `InitSystem` and `SaveMcdBram`: the last 0x20 bytes of
      the region equal bytes 0x20..0x40 of the table. Those table bytes are
      never written (see `TableBytes`), so the check does not depend on the
      size fields. */
  predicate IsFormatted(region: seq<byte>): (ok: bool)
    requires |region| >= SignatureSize
    ensures forall t: FormatTable :: ok <==> region[|region| - SignatureSize..] == TableBytes(t)[SignatureSize..]
  {
    region[|region| - SignatureSize..] == Signature
  }

  /** The size-field value for a region of `size` bytes: the number of
      64-byte blocks minus 3, split into its high and low byte as stored into
      `uint8`s. Dafny's division is floored for a positive divisor, so this
      is also what an arithmetic shift and a two's-complement mask give when
      the value is negative, and what unsigned wrap-around gives. */
  function SizeValue(size: nat): int
  {
    size / 64 - 3
  }

  function HighByte(v: int): byte
  {
    ((v / 256) % 256) as byte
  }

  function LowByte(v: int): byte
  {
    (v % 256) as byte
  }

  datatype Formatted = Formatted(region: seq<byte>, table: FormatTable)

  /** One format block of `InitSystem`: a formatted region and the table are
      left alone; otherwise the first `clearLen` bytes are zeroed, the size
      bytes `hi`, `lo` are written into the table, and the table is copied
      over the last 0x40 bytes. */
  function FormatRegion(region: seq<byte>, table: FormatTable, clearLen: nat, hi: byte, lo: byte): (r: Formatted)
    requires FormatSize <= |region| && (clearLen == |region| || clearLen <= |region| - FormatSize)
    ensures |r.region| == |region|
    ensures IsFormatted(r.region)
    ensures IsFormatted(region) ==> r == Formatted(region, table)
    ensures !IsFormatted(region) ==>
      && r.table == FormatTable(hi, lo)
      && r.region[|region| - FormatSize..] == TableBytes(r.table)
      && (forall i :: 0 <= i < clearLen && i < |region| - FormatSize ==> r.region[i] == 0)
      && (clearLen <= |region| - FormatSize ==>
            r.region[clearLen..|region| - FormatSize] == region[clearLen..|region| - FormatSize])
      && (clearLen <= |region| - FormatSize ==>
            r.region == Zeros(clearLen) + region[clearLen..|region| - FormatSize] + TableBytes(r.table))
  {
    if IsFormatted(region) then Formatted(region, table)
    else
      var t := FormatTable(hi, lo);
      Formatted(ClearAndStamp(region, clearLen, TableBytes(t)), t)
  }

  /** `memset(region, 0, clearLen)` followed by copying the table bytes `t`
      over the last 0x40 bytes. */
  function ClearAndStamp(region: seq<byte>, clearLen: nat, t: seq<byte>): (r: seq<byte>)
    requires |t| == FormatSize && t[SignatureSize..] == Signature
    requires FormatSize <= |region| && (clearLen == |region| || clearLen <= |region| - FormatSize)
    ensures |r| == |region|
    ensures r[|region| - FormatSize..] == t
    ensures IsFormatted(r)
    ensures forall i :: 0 <= i < clearLen && i < |region| - FormatSize ==> r[i] == 0
    ensures clearLen <= |region| - FormatSize ==>
      r[clearLen..|region| - FormatSize] == region[clearLen..|region| - FormatSize]
    ensures clearLen <= |region| - FormatSize ==>
      r == Zeros(clearLen) + region[clearLen..|region| - FormatSize] + t
  {
    var n := |region| - FormatSize;
    var cleared := Zeros(clearLen) + region[clearLen..];
    var r := cleared[..n] + t;
    assert r[n..] == t;
    assert r[|region| - SignatureSize..] == t[SignatureSize..];
    assert clearLen <= n ==> cleared[..n] == Zeros(clearLen) + region[clearLen..n];
    r
  }

  /** The internal backup RAM block: clears 0x200 bytes and stores the
      size value 8192 / 64 - 3 = 125 as 0x00, 0x7d. */
  function FormatInternal(bram: seq<byte>, table: FormatTable): (r: Formatted)
    requires |bram| == InternalSize
    ensures |r.region| == InternalSize
    ensures IsFormatted(r.region)
    ensures IsFormatted(bram) ==> r == Formatted(bram, table)
    ensures !IsFormatted(bram) ==>
      && r.table == FormatTable(0x00, 0x7d)
      && r.region == Zeros(InternalClearSize) + bram[InternalClearSize..InternalSize - FormatSize] + TableBytes(r.table)
  {
    InternalSizeBytes();
    var r := FormatRegion(bram, table, InternalClearSize, HighByte(SizeValue(InternalSize)), LowByte(SizeValue(InternalSize)));
    r
  }

  /** 8192 / 64 - 3 = 125 = 0x007d. */
  lemma InternalSizeBytes()
    ensures HighByte(SizeValue(InternalSize)) == 0x00 && LowByte(SizeValue(InternalSize)) == 0x7d
  {
    assert SizeValue(InternalSize) == 125;
    assert 125 / 256 == 0 && 125 % 256 == 125;
  }

  /** The cartridge backup RAM block: clears the whole area and stores the
      area's size value. */
  function FormatCartridge(area: seq<byte>, table: FormatTable): (r: Formatted)
    requires |area| >= FormatSize
    ensures |r.region| == |area|
    ensures IsFormatted(r.region)
    ensures IsFormatted(area) ==> r == Formatted(area, table)
    ensures !IsFormatted(area) ==>
      && r.table == FormatTable(HighByte(SizeValue(|area|)), LowByte(SizeValue(|area|)))
      && r.region == Zeros(|area| - FormatSize) + TableBytes(r.table)
  {
    var v := SizeValue(|area|);
    var r := FormatRegion(area, table, |area|, HighByte(v), LowByte(v));
    if !IsFormatted(area) then
      assert r.region == r.region[..|area| - FormatSize] + r.region[|area| - FormatSize..];
      r
    else r
  }

  /** Formatting twice is formatting once. */
  lemma FormatIdempotent(region: seq<byte>, table: FormatTable, clearLen: nat, hi: byte, lo: byte)
    requires FormatSize <= |region| && (clearLen == |region| || clearLen <= |region| - FormatSize)
    ensures var r := FormatRegion(region, table, clearLen, hi, lo);
      FormatRegion(r.region, r.table, clearLen, hi, lo) == r
  {
  }

  // ---------------------------------------------------------------------
  // Start-up and saving

  datatype BackupState = BackupState(bram: seq<byte>, cart: Option<seq<byte>>, table: FormatTable)

  predicate ValidState(b: BackupState)
  {
    && |b.bram| == InternalSize
    && (b.cart.Some? ==> |b.cart.value| >= FormatSize)
  }

  /** The Mega CD part of `InitSystem` after the images were read: format
      the internal RAM, then the cartridge RAM if a cartridge is present.
      On other hardware nothing happens. */
  function InitBackup(isMcd: bool, b: BackupState): (r: BackupState)
    requires ValidState(b)
    ensures ValidState(r)
    ensures !isMcd ==> r == b
    ensures isMcd ==> IsFormatted(r.bram)
    ensures isMcd ==> r.cart.Some? == b.cart.Some?
    ensures isMcd && r.cart.Some? ==> IsFormatted(r.cart.value)
    ensures isMcd && IsFormatted(b.bram) ==> r.bram == b.bram
    ensures isMcd ==> r.bram == FormatInternal(b.bram, b.table).region
    ensures isMcd && b.cart.None? ==> r.cart == None && r.table == FormatInternal(b.bram, b.table).table
    ensures isMcd && b.cart.Some? ==>
      var c := FormatCartridge(b.cart.value, FormatInternal(b.bram, b.table).table);
      r.cart == Some(c.region) && r.table == c.table
    ensures isMcd && b.cart.Some? && IsFormatted(b.cart.value) ==> r.cart == b.cart
  {
    if !isMcd then b
    else
      var i := FormatInternal(b.bram, b.table);
      match b.cart
      case None => BackupState(i.region, None, i.table)
      case Some(area) =>
        var c := FormatCartridge(area, i.table);
        BackupState(i.region, Some(c.region), c.table)
  }

  const InternalFile: string := "./scd.brm"
  const CartridgeFile: string := "./cart.brm"

  datatype SaveFile = SaveFile(path: string, data: seq<byte>)

  /** `SaveMcdBram`: on a Mega CD, the internal RAM is written if formatted,
      and the cartridge RAM if present and formatted. */
  function SaveMcdBram(isMcd: bool, b: BackupState): (writes: seq<SaveFile>)
    requires ValidState(b)
    ensures forall w :: w in writes ==> isMcd && |w.data| >= SignatureSize && IsFormatted(w.data)
    ensures forall w :: w in writes ==>
      (w.path == InternalFile && w.data == b.bram) || (w.path == CartridgeFile && b.cart == Some(w.data))
    ensures SaveFile(InternalFile, b.bram) in writes <==> isMcd && IsFormatted(b.bram)
    ensures b.cart.Some? ==>
      (SaveFile(CartridgeFile, b.cart.value) in writes <==> isMcd && IsFormatted(b.cart.value))
  {
    if !isMcd then []
    else
      (if IsFormatted(b.bram) then [SaveFile(InternalFile, b.bram)] else [])
      + (match b.cart
         case Some(area) => if IsFormatted(area) then [SaveFile(CartridgeFile, area)] else []
         case None => [])
  }

  /** Whatever the images held at start-up, a Mega CD saves every region it
      has, with the contents start-up left. */
  lemma InitThenSaveWritesAll(b: BackupState)
    requires ValidState(b)
    ensures var r := InitBackup(true, b);
      && SaveFile(InternalFile, r.bram) in SaveMcdBram(true, r)
      && (r.cart.Some? ==> SaveFile(CartridgeFile, r.cart.value) in SaveMcdBram(true, r))
  {
  }

  /** From the table's initial contents, start-up leaves the size fields at
      0x00 when every region present was already formatted, and at the
      internal RAM's 0x00 0x7d when only the internal RAM needed formatting. */
  lemma StartupTable(b: BackupState)
    requires ValidState(b) && b.table == InitialTable
    ensures var r := InitBackup(true, b);
      && (IsFormatted(b.bram) && (b.cart.None? || IsFormatted(b.cart.value)) ==> r.table == InitialTable)
      && (!IsFormatted(b.bram) && (b.cart.None? || IsFormatted(b.cart.value)) ==> r.table == FormatTable(0x00, 0x7d))
      && (b.cart.Some? && !IsFormatted(b.cart.value) ==>
            r.table == FormatTable(HighByte(SizeValue(|b.cart.value|)), LowByte(SizeValue(|b.cart.value|))))
  {
  }
}

=== FILE: boot_rom.dfy ===
/** The Genesis boot ROM read at start-up by `Init`: up to 2 KB read over a
    0xFF fill, recognised as the Genesis BIOS by the text "GENESIS OS" at
    offset 0x120, then byte-swapped in 16-bit words. */
module BootRom {
  import opened Bytes

  const BootRomSize: nat := 0x800
  const SignatureOffset: nat := 0x120
  /** The bytes of "GENESIS OS". */
  const GenesisOs: seq<byte> := [0x47, 0x45, 0x4e, 0x45, 0x53, 0x49, 0x53, 0x20, 0x4f, 0x53]

  /** The partner of byte `i` in its 16-bit word. */
  function SwapIndex(i: nat): nat
  {
    if i % 2 == 0 then i + 1 else i - 1
  }

  /** Swaps the two bytes of every 16-bit word. */
  function ByteSwap(rom: seq<byte>): (r: seq<byte>)
    requires |rom| % 2 == 0
    ensures |r| == |rom|
  {
    seq(|rom|, i requires 0 <= i < |rom| => rom[SwapIndex(i)])
  }

  /** Swapping twice restores the image. */
  lemma ByteSwapInvolution(rom: seq<byte>)
    requires |rom| % 2 == 0
    ensures ByteSwap(ByteSwap(rom)) == rom
  {
    var once := ByteSwap(rom);
    forall i | 0 <= i < |rom|
      ensures ByteSwap(once)[i] == rom[i]
    {
      assert SwapIndex(SwapIndex(i)) == i;
    }
  }

  /** The loop of `Init`: `temp` exchange of each even/odd pair. */
  method ByteSwapInPlace(rom0: seq<byte>) returns (rom: seq<byte>)
    requires |rom0| % 2 == 0
    ensures |rom| == |rom0|
    ensures forall i :: 0 <= i < |rom0| ==> rom[i] == rom0[SwapIndex(i)]
  {
    rom := rom0;
    var i := 0;
    while i < |rom0|
      invariant 0 <= i <= |rom0| && i % 2 == 0
      invariant |rom| == |rom0|
      invariant forall w :: 0 <= w < i / 2 ==> rom[2 * w] == rom0[2 * w + 1] && rom[2 * w + 1] == rom0[2 * w]
      invariant forall j :: i <= j < |rom0| ==> rom[j] == rom0[j]
    {
      var temp := rom[i];
      rom := rom[i := rom[i + 1]][i + 1 := temp];
      i := i + 2;
    }
    forall j | 0 <= j < |rom0|
      ensures rom[j] == rom0[SwapIndex(j)]
    {
      var w := j / 2;
      assert i == |rom0| && w < i / 2;
      if j % 2 == 0 {
        assert j == 2 * w && SwapIndex(j) == 2 * w + 1;
      } else {
        assert j == 2 * w + 1 && SwapIndex(j) == 2 * w;
      }
    }
  }

  /** What `fread(boot_rom, 1, 0x800, fp)` leaves over the 0xFF fill: the
      file's first bytes, at most 0x800 of them. */
  function ReadImage(file: seq<byte>): (img: seq<byte>)
    ensures |img| == BootRomSize
    ensures forall i :: 0 <= i < BootRomSize ==> img[i] == if i < |file| then file[i] else 0xFF
  {
    if |file| >= BootRomSize then file[..BootRomSize] else file + Fill(BootRomSize - |file|, 0xFF)
  }

  datatype Boot = Boot(rom: seq<byte>, genesisBios: bool)

  /** The boot ROM part of `Init`. Without a file the ROM stays 0xFF and no
      BIOS is marked. With one, the BIOS is marked iff the file itself holds
      "GENESIS OS" at 0x120, and the ROM is the byte-swapped image. */
  function LoadBootRom(file: Option<seq<byte>>): (b: Boot)
    ensures |b.rom| == BootRomSize
    ensures file.None? ==> b.rom == Fill(BootRomSize, 0xFF) && !b.genesisBios
    ensures file.Some? ==> ByteSwap(b.rom) == ReadImage(file.value)
    ensures file.Some? ==> (b.genesisBios <==>
      |file.value| >= SignatureOffset + |GenesisOs| && file.value[SignatureOffset..SignatureOffset + |GenesisOs|] == GenesisOs)
  {
    match file
    case None => Boot(Fill(BootRomSize, 0xFF), false)
    case Some(data) =>
      var img := ReadImage(data);
      var bios := img[SignatureOffset..SignatureOffset + |GenesisOs|] == GenesisOs;
      SignatureNeedsFileBytes(data);
      ByteSwapInvolution(img);
      Boot(ByteSwap(img), bios)
  }

  /** The signature is found in the image exactly when the file holds it:
      the 0xFF fill can never supply one of its bytes. */
  lemma SignatureNeedsFileBytes(data: seq<byte>)
    ensures var img := ReadImage(data);
      img[SignatureOffset..SignatureOffset + |GenesisOs|] == GenesisOs <==>
      |data| >= SignatureOffset + |GenesisOs| && data[SignatureOffset..SignatureOffset + |GenesisOs|] == GenesisOs
  {
    var img := ReadImage(data);
    var end := SignatureOffset + |GenesisOs|;
    if |data| >= end {
      assert img[SignatureOffset..end] == data[SignatureOffset..end];
    } else {
      var j := if |data| > SignatureOffset then |data| else SignatureOffset;
      assert img[j] == 0xFF;
      assert img[SignatureOffset..end][j - SignatureOffset] != GenesisOs[j - SignatureOffset];
    }
  }
}

=== FILE: bytes.dfy ===
/** Shared vocabulary: bytes, byte strings and an optional value. */
module Bytes {

  /** One byte of memory (the C `uint8` / `Uint8` / `char` of a buffer). */
  type byte = bv8

  /** `n` zero bytes, what `memset(p, 0, n)` leaves behind. */
  function Zeros(n: nat): (r: seq<byte>)
    ensures |r| == n
    ensures forall i :: 0 <= i < n ==> r[i] == 0
  {
    seq(n, _ => 0)
  }

  /** `n` copies of the byte `b`. */
  function Fill(n: nat, b: byte): (r: seq<byte>)
    ensures |r| == n
    ensures forall i :: 0 <= i < n ==> r[i] == b
  {
    seq(n, _ => b)
  }

  /** The conventional optional value. */
  datatype Option<+T> = None | Some(value: T)
}

=== FILE: debug_requests.dfy ===
/** The editor's debugger commands. `AddBreakpoint` and `ClearBreakpoint`
    fill the breakpoint payload of the shared request block; the other
    commands leave it alone. Every command except `IsDebugging` sends one
    request through `send_dbg_request_forced`. The three breakpoint
    commands force the request (apply it at once instead of at the main
    loop's next safe point) when the front end is not running; `StepInto`,
    `Resume` and `Break` never force it. `IsDebugging` sends nothing.

    The code that applies requests is not part of this model, so a sent
    request is recorded in a log together with the payload the shared block
    held when it was sent. `running` is the front end's own flag; `paused`
    is what `is_debugger_paused()` answers. */
module DebugRequests {

  datatype RequestType = ReqAddBreak | ReqDelBreak | ReqClearBreaks | ReqPause | ReqResume | ReqStepInto

  /** Breakpoint kinds. The commands here only set 68000 execution
      breakpoints; the block may hold any other kind before the first one. */
  datatype BptType = BptM68kE | OtherKind(code: int)

  /** The breakpoint payload of the shared request block. */
  datatype BptData = BptData(enabled: int, address: int, width: int, kind: BptType)

  datatype Request = Request(op: RequestType, bpt: BptData, forced: bool)

  /** The shared request block's payload and every request sent so far. */
  datatype Channel = Channel(bpt: BptData, log: seq<Request>)

  /** `send_dbg_request_forced`: the request goes out with the block's
      current payload. */
  function Send(c: Channel, op: RequestType, forced: bool): (r: Channel)
    ensures r.bpt == c.bpt
    ensures |r.log| == |c.log| + 1 && r.log[..|c.log|] == c.log
    ensures r.log[|c.log|] == Request(op, c.bpt, forced)
  {
    c.(log := c.log + [Request(op, c.bpt, forced)])
  }

  /** The request a command appended last. */
  function LastRequest(c: Channel): Request
    requires |c.log| > 0
  {
    c.log[|c.log| - 1]
  }

  /** `AddBreakpoint`: an enabled, zero-width 68000 execution breakpoint at
      `addr`, forced iff not running. The C function always returns 0. */
  function AddBreakpoint(c: Channel, running: bool, addr: int): (r: Channel)
    ensures r.bpt == BptData(1, addr, 0, BptM68kE)
    ensures r.log == c.log + [Request(ReqAddBreak, r.bpt, !running)]
  {
    Send(c.(bpt := BptData(1, addr, 0, BptM68kE)), ReqAddBreak, !running)
  }

  /** `ClearBreakpoint`: only the address and the kind of the block are
      rewritten; `enabled` and `width` keep whatever the block held. */
  function ClearBreakpoint(c: Channel, running: bool, addr: int): (r: Channel)
    ensures r.bpt.address == addr && r.bpt.kind == BptM68kE
    ensures r.bpt.enabled == c.bpt.enabled && r.bpt.width == c.bpt.width
    ensures r.log == c.log + [Request(ReqDelBreak, r.bpt, !running)]
  {
    Send(c.(bpt := c.bpt.(address := addr, kind := BptM68kE)), ReqDelBreak, !running)
  }

  /** `ClearBreakpoints`: no payload is written. */
  function ClearBreakpoints(c: Channel, running: bool): (r: Channel)
    ensures r.bpt == c.bpt
    ensures r.log == c.log + [Request(ReqClearBreaks, c.bpt, !running)]
  {
    Send(c, ReqClearBreaks, !running)
  }

  /** `StepInto`: a step needs a paused core, so a running one is asked to
      pause first. Never forced. */
  function StepInto(c: Channel, paused: bool): (r: Channel)
    ensures r.bpt == c.bpt && |r.log| == |c.log| + 1 && r.log[..|c.log|] == c.log
    ensures LastRequest(r) == Request(if paused then ReqStepInto else ReqPause, c.bpt, false)
  {
    if paused then Send(c, ReqStepInto, false) else Send(c, ReqPause, false)
  }

  /** `Resume`: an unforced resume request. */
  function Resume(c: Channel): (r: Channel)
    ensures r.bpt == c.bpt && |r.log| == |c.log| + 1 && r.log[..|c.log|] == c.log
    ensures LastRequest(r) == Request(ReqResume, c.bpt, false)
  {
    Send(c, ReqResume, false)
  }

  /** `Break`: an unforced pause request. */
  function Break(c: Channel): (r: Channel)
    ensures r.bpt == c.bpt && |r.log| == |c.log| + 1 && r.log[..|c.log|] == c.log
    ensures LastRequest(r) == Request(ReqPause, c.bpt, false)
  {
    Send(c, ReqPause, false)
  }

  /** `IsDebugging`: the core is paused while the front end runs. */
  function IsDebugging(paused: bool, running: bool): (r: bool)
    ensures r ==> paused
    ensures r ==> running
    ensures paused && running ==> r
  {
    paused && running
  }

  // ---------------------------------------------------------------------
  // The breakpoint table as the request types describe it

  /** Table entries are keyed by address and kind. */
  datatype Key = Key(address: int, kind: BptType)

  /** Applying one request to a breakpoint table: add inserts or overwrites
      the entry for the payload's key, delete removes it, clear empties the
      table; run-control requests leave the table alone. */
  function Apply(table: map<Key, BptData>, req: Request): (r: map<Key, BptData>)
    ensures req.op == ReqAddBreak ==>
      Key(req.bpt.address, req.bpt.kind) in r && r[Key(req.bpt.address, req.bpt.kind)] == req.bpt
    ensures req.op == ReqDelBreak ==> Key(req.bpt.address, req.bpt.kind) !in r
    ensures req.op == ReqClearBreaks ==> r == map[]
    ensures req.op in {ReqPause, ReqResume, ReqStepInto} ==> r == table
    ensures req.op != ReqClearBreaks ==>
      (forall k :: k in table && k != Key(req.bpt.address, req.bpt.kind) ==> k in r && r[k] == table[k])
    ensures req.op != ReqClearBreaks ==> r.Keys <= table.Keys + {Key(req.bpt.address, req.bpt.kind)}
  {
    var k := Key(req.bpt.address, req.bpt.kind);
    match req.op
    case ReqAddBreak => table[k := req.bpt]
    case ReqDelBreak => table - {k}
    case ReqClearBreaks => map[]
    case _ => table
  }

  /** A whole log applied in order. */
  function ApplyAll(table: map<Key, BptData>, log: seq<Request>): map<Key, BptData>
    decreases |log|
  {
    if |log| == 0 then table else ApplyAll(Apply(table, log[0]), log[1..])
  }

  lemma {:induction false} ApplyAllAppend(table: map<Key, BptData>, log: seq<Request>, req: Request)
    ensures ApplyAll(table, log + [req]) == Apply(ApplyAll(table, log), req)
    decreases |log|
  {
    if |log| > 0 {
      assert (log + [req])[1..] == log[1..] + [req];
      ApplyAllAppend(Apply(table, log[0]), log[1..], req);
    }
  }

  /** Adding a breakpoint at a fresh address and clearing it again sends
      two requests that together leave the table as it was. */
  lemma AddThenClearRestores(c: Channel, running: bool, addr: int, table: map<Key, BptData>)
    requires Key(addr, BptM68kE) !in ApplyAll(table, c.log)
    ensures var r := ClearBreakpoint(AddBreakpoint(c, running, addr), running, addr);
      ApplyAll(table, r.log) == ApplyAll(table, c.log)
  {
    var a := AddBreakpoint(c, running, addr);
    var r := ClearBreakpoint(a, running, addr);
    ApplyAllAppend(table, c.log, LastRequest(a));
    assert r.log == a.log + [LastRequest(r)];
    ApplyAllAppend(table, a.log, LastRequest(r));
    var before := ApplyAll(table, c.log);
    var k := Key(addr, BptM68kE);
    assert ApplyAll(table, r.log) == before[k := LastRequest(a).bpt] - {k};
    assert before[k := LastRequest(a).bpt] - {k} == before;
  }

  /** After ClearBreakpoints the table is empty, whatever was added before. */
  lemma ClearEmptiesTable(c: Channel, running: bool, table: map<Key, BptData>)
    ensures ApplyAll(table, ClearBreakpoints(c, running).log) == map[]
  {
    ApplyAllAppend(table, c.log, Request(ReqClearBreaks, c.bpt, !running));
  }

  /** Run-control commands never change the table. */
  lemma RunControlKeepsTable(c: Channel, paused: bool, table: map<Key, BptData>)
    ensures ApplyAll(table, StepInto(c, paused).log) == ApplyAll(table, c.log)
    ensures ApplyAll(table, Resume(c).log) == ApplyAll(table, c.log)
    ensures ApplyAll(table, Break(c).log) == ApplyAll(table, c.log)
  {
    ApplyAllAppend(table, c.log, LastRequest(StepInto(c, paused)));
    assert StepInto(c, paused).log == c.log + [LastRequest(StepInto(c, paused))];
    ApplyAllAppend(table, c.log, LastRequest(Resume(c)));
    assert Resume(c).log == c.log + [LastRequest(Resume(c))];
    ApplyAllAppend(table, c.log, LastRequest(Break(c)));
    assert Break(c).log == c.log + [LastRequest(Break(c))];
  }
}

=== FILE: editor_queries.dfy ===
/** Two small editor queries: reading a Z80 register by index, and the
    twelve-entry keyboard-to-pad mapping table. */
module EditorQueries {

  /** The Z80 register pairs `GetZ80Reg` can read, as full 32-bit values. */
  datatype Z80 = Z80(af: int, bc: int, de: int, hl: int, af2: int, bc2: int, de2: int, hl2: int,
                     ix: int, iy: int, sp: int, pc: int)

  /** The registers in the editor's index order. */
  function RegisterOrder(z: Z80): (s: seq<int>)
    ensures |s| == 12
  {
    [z.af, z.bc, z.de, z.hl, z.af2, z.bc2, z.de2, z.hl2, z.ix, z.iy, z.sp, z.pc]
  }

  /** `GetZ80Reg`: indices 0..11 select a register, anything else reads 0. */
  function GetZ80Reg(z: Z80, index: int): (v: int)
    ensures 0 <= index < 12 ==> v == RegisterOrder(z)[index]
    ensures !(0 <= index < 12) ==> v == 0
  {
    match index
    case 0 => z.af
    case 1 => z.bc
    case 2 => z.de
    case 3 => z.hl
    case 4 => z.af2
    case 5 => z.bc2
    case 6 => z.de2
    case 7 => z.hl2
    case 8 => z.ix
    case 9 => z.iy
    case 10 => z.sp
    case 11 => z.pc
    case _ => 0
  }

  /** Pad buttons, in the order of the header's `eInput` indices. */
  datatype Button = Up | Down | Left | Right | B | C | A | Start | Z | Y | X | Mode

  const InputCount: nat := 12

  /** The button an `eInput` index names. */
  function ButtonOf(input: nat): Button
    requires input < InputCount
  {
    [Up, Down, Left, Right, B, C, A, Start, Z, Y, X, Mode][input]
  }

  /** One row of `sdlInputMapping`: a key code and the pad button it drives. */
  datatype Mapping = Mapping(sdlKey: int, button: Button)

  /** The table as initialised (letter and space key codes are their
      character codes). */
  const DefaultMappings: seq<Mapping> := [
    Mapping('i' as int, Up), Mapping('k' as int, Down), Mapping('j' as int, Left),
    Mapping('l' as int, Right), Mapping('s' as int, B), Mapping('d' as int, C),
    Mapping('a' as int, A), Mapping(' ' as int, Start), Mapping('c' as int, Z),
    Mapping('x' as int, Y), Mapping('z' as int, X), Mapping('m' as int, Mode)
  ]

  /** A mapping table: one row per input, row `k` driving button `k`. */
  predicate ValidTable(t: seq<Mapping>)
  {
    |t| == InputCount && forall k :: 0 <= k < InputCount ==> t[k].button == ButtonOf(k)
  }

  /** The initial rows follow the `eInput` order. */
  lemma DefaultTableValid()
    ensures ValidTable(DefaultMappings)
  {
    forall k | 0 <= k < InputCount
      ensures DefaultMappings[k].button == ButtonOf(k)
    {
    }
  }

  /** `GetInputMapping`: the key bound to pad input `input`. In a table
      whose rows follow the input order, that is the key of the one row that
      drives the input's button. The C code does not check `input`; only
      0..11 are valid. */
  function GetInputMapping(t: seq<Mapping>, input: int): (k: int)
    requires |t| == InputCount && 0 <= input < InputCount
    ensures ValidTable(t) ==> t[input] == Mapping(k, ButtonOf(input))
    ensures ValidTable(t) ==> forall j :: 0 <= j < InputCount && t[j].button == ButtonOf(input) ==> t[j].sdlKey == k
  {
    t[input].sdlKey
  }

  /** `SetInputMapping`: rebinds the key of one row; buttons never move. */
  function SetInputMapping(t: seq<Mapping>, input: int, key: int): (r: seq<Mapping>)
    requires ValidTable(t) && 0 <= input < InputCount
    ensures ValidTable(r)
    ensures GetInputMapping(r, input) == key
    ensures forall k :: 0 <= k < InputCount && k != input ==> GetInputMapping(r, k) == GetInputMapping(t, k)
  {
    t[input := t[input].(sdlKey := key)]
  }

  /** A second rebinding of the same input replaces the first. */
  lemma SetTwice(t: seq<Mapping>, input: int, k1: int, k2: int)
    requires ValidTable(t) && 0 <= input < InputCount
    ensures SetInputMapping(SetInputMapping(t, input, k1), input, k2) == SetInputMapping(t, input, k2)
  {
  }
}

=== FILE: frame_governor.dfy ===
/** The frame governor: a periodic timer posts one semaphore unit per tick,
    the main loop takes one unit every third rendered frame, and once per
    reporting period the timer pushes an FPS event and restarts its counts.

    The semaphore is a counter. `frames` is `sdl_video.frames_rendered`,
    which both the main loop and the timer touch; `events` is the sequence of
    FPS codes pushed to the event queue so far. */
module FrameGovernor {
  import Arith

  /** `Uint32` and `unsigned` counters wrap at 2^32. */
  const U32: nat := 0x1_0000_0000

  /** The main loop waits on the semaphore once every this many frames. */
  const WaitEvery: nat := 3

  /** Nominal video frame rate of the region. */
  function FrameRate(pal: bool): nat
  {
    if pal then 50 else 60
  }

  /** Frames per second is the frame count divided by this at a report. */
  function FpsDivisor(pal: bool): (d: nat)
    ensures d >= 1
  {
    if pal then 3 else 1
  }

  /** The timer period set up at system start: one tick lasts as long as
      WaitEvery frames (50 ms at 60 Hz, 60 ms at 50 Hz). */
  function TimerPeriodMs(pal: bool): (ms: nat)
    ensures ms * FrameRate(pal) == WaitEvery * 1000
  {
    if pal then 60 else 50
  }

  /** Ticks per FPS report. A report covers FpsDivisor seconds, so the
      reported code is a per-second rate. */
  function Threshold(pal: bool): (t: nat)
    ensures t * TimerPeriodMs(pal) == 1000 * FpsDivisor(pal)
  {
    if pal then 50 else 20
  }

  /** The code of the FPS event pushed for `frames` rendered frames. */
  function FpsCode(pal: bool, frames: nat): (code: nat)
    ensures code * FpsDivisor(pal) <= frames < (code + 1) * FpsDivisor(pal)
  {
    if pal then frames / 3 else frames
  }

  datatype Governor = Governor(pal: bool, sem: nat, ticks: nat, frames: nat, events: seq<int>)

  /** The unsigned counters are within their C width. */
  predicate InRange(g: Governor)
  {
    g.ticks < U32 && g.frames < U32
  }

  /** Reachable states: the tick counter never reaches the threshold. */
  predicate Valid(g: Governor)
  {
    InRange(g) && g.ticks < Threshold(g.pal)
  }

  /** State after `sdl_sync_init` and `sdl_video_init`. */
  function Init(pal: bool): (g: Governor)
    ensures Valid(g)
    ensures g.pal == pal && g.sem == 0 && g.events == []
    ensures g.ticks == 0 && g.frames == 0
  {
    Governor(pal, 0, 0, 0, [])
  }

  /** `sdl_sync_timer_callback`. While the debugger is paused a tick does
      nothing. Otherwise it posts one unit and counts the tick; the tick that
      brings the count to the threshold pushes one FPS event and restarts
      both the tick and the frame count. */
  function TimerTick(g: Governor, paused: bool): (r: Governor)
    requires InRange(g)
    ensures InRange(r) && r.pal == g.pal
    ensures Valid(g) ==> Valid(r)
    ensures paused ==> r == g
    ensures !paused ==> r.sem == g.sem + 1
    ensures !paused && g.ticks + 1 == Threshold(g.pal) ==>
      r.ticks == 0 && r.frames == 0 && r.events == g.events + [FpsCode(g.pal, g.frames)]
    ensures !paused && g.ticks + 1 != Threshold(g.pal) ==>
      r.ticks == (g.ticks + 1) % U32 && r.frames == g.frames && r.events == g.events
  {
    if paused then g
    else
      var ticks := (g.ticks + 1) % U32;
      if ticks == Threshold(g.pal) then
        g.(sem := g.sem + 1, ticks := 0, frames := 0, events := g.events + [FpsCode(g.pal, g.frames)])
      else
        g.(sem := g.sem + 1, ticks := ticks)
  }

  /** `n` consecutive timer ticks under the same pause state. */
  function Ticks(g: Governor, paused: bool, n: nat): (r: Governor)
    requires InRange(g)
    ensures InRange(r) && r.pal == g.pal
  {
    if n == 0 then g else TimerTick(Ticks(g, paused, n - 1), paused)
  }

  /** Any number of ticks while paused change nothing: no catching up
      after a pause. */
  lemma {:induction false} PausedTicksIdle(g: Governor, n: nat)
    requires InRange(g)
    ensures Ticks(g, true, n) == g
  {
    if n > 0 {
      PausedTicksIdle(g, n - 1);
    }
  }

  /** Running ticks post one unit each and report once every Threshold
      ticks: after `n` ticks the tick count is the remainder and the number
      of new reports the quotient of `ticks + n` by the threshold. */
  lemma {:induction false} RunningTicksReport(g: Governor, n: nat)
    requires Valid(g)
    ensures var r := Ticks(g, false, n);
      && Valid(r)
      && r.sem == g.sem + n
      && r.ticks == (g.ticks + n) % Threshold(g.pal)
      && |r.events| == |g.events| + (g.ticks + n) / Threshold(g.pal)
  {
    if n > 0 {
      RunningTicksReport(g, n - 1);
      var p := Ticks(g, false, n - 1);
      TickCounts(p, g.ticks + n - 1);
    }
  }

  /** One running tick, seen as counting on from `a`: the tick count follows
      the remainder and the reports the quotient by the threshold. */
  lemma TickCounts(p: Governor, a: nat)
    requires Valid(p) && p.ticks == a % Threshold(p.pal)
    ensures var r := TimerTick(p, false);
      && Valid(r)
      && r.sem == p.sem + 1
      && r.ticks == (a + 1) % Threshold(p.pal)
      && |r.events| == |p.events| + (a + 1) / Threshold(p.pal) - a / Threshold(p.pal)
  {
    Arith.DivModSucc(a, Threshold(p.pal));
  }

  /** `++sdl_video.frames_rendered` after a frame is drawn. */
  function FrameRendered(g: Governor): (r: Governor)
    requires InRange(g)
    ensures InRange(r)
    ensures Valid(g) ==> Valid(r)
    ensures r.frames == (g.frames + 1) % U32
    ensures r.(frames := g.frames) == g
  {
    g.(frames := (g.frames + 1) % U32)
  }

  /** `SDL_SemWait`. A unit that is available is taken at once; otherwise
      the main loop blocks until the timer's next tick posts one and then
      takes it, so that tick's other effects happen first. */
  function Wait(g: Governor): (r: Governor)
    requires InRange(g)
    ensures InRange(r)
    ensures Valid(g) ==> Valid(r)
    ensures g.sem > 0 ==> r == g.(sem := g.sem - 1)
    ensures g.sem == 0 ==> r.sem == 0 && r == TimerTick(g, false).(sem := 0)
  {
    if g.sem > 0 then g.(sem := g.sem - 1)
    else
      var t := TimerTick(g, false);
      t.(sem := t.sem - 1)
  }

  /** A wait takes back exactly the unit one running tick posts. */
  lemma TickThenWait(g: Governor)
    requires Valid(g)
    ensures Wait(TimerTick(g, false)) == TimerTick(g, false).(sem := g.sem)
  {
  }
}

=== FILE: main_loop.dfy ===
/** One call of `Update`, the editor's per-tick entry point: process
    debugger requests while paused, otherwise handle one window event,
    render one frame, queue its audio, pace against the frame governor and
    process debugger requests.

    The emulation core's frame rendering, its audio mixer and the request
    processor are not part of this model: a frame is the frame counter going
    up, the mixer's output is the `samples` parameter, and request
    processing is counted. */
module MainLoop {
  import opened Bytes
  import AudioBuffer
  import FrameGovernor
  import DebugRequests

  /** The SDL key codes `sdl_control_update` tells apart (`SDLK_TAB` is
      '\t', `SDLK_ESCAPE` is '\x1B'). A key is its key code, so the cases
      of the switch are disjoint as in C. */
  const SdlkTab: int := 0x09
  const SdlkEscape: int := 0x1B

  /** The event `SDL_PollEvent` returned, if any. */
  datatype Event = UserEvent(code: int) | QuitEvent | KeyDown(sym: int) | OtherEvent

  datatype Emulator = Emulator(
    running: bool,                  // the front end's `running` flag
    sound: AudioBuffer.Sound,
    gov: FrameGovernor.Governor,
    useSound: bool,
    turbo: bool,
    semExists: bool,                // `sdl_sync.sem_sync` was created
    requestsProcessed: nat,         // calls of `process_request`
    resets: nat,                    // calls of `system_reset` from the keyboard
    caption: Option<int>)           // FPS figure shown in the window title

  predicate Valid(e: Emulator)
  {
    AudioBuffer.Valid(e.sound) && FrameGovernor.Valid(e.gov)
  }

  /** `sdl_control_update`: Tab resets the system and keeps running, Escape
      stops, any other key keeps running. */
  datatype Control = Control(keepRunning: bool, reset: bool)

  function ControlUpdate(sym: int): (c: Control)
    ensures c.keepRunning <==> sym != SdlkEscape
    ensures c.reset <==> sym == SdlkTab
  {
    if sym == SdlkTab then Control(true, true)
    else if sym == SdlkEscape then Control(false, false)
    else Control(true, false)
  }

  /** Whether an event stops the front end: a Quit event or the Escape key. */
  predicate Stops(event: Option<Event>)
  {
    event == Some(QuitEvent) || event == Some(KeyDown(SdlkEscape))
  }

  /** The event switch of `Update`. */
  function HandleEvent(e: Emulator, event: Option<Event>): (r: Emulator)
    ensures r.sound == e.sound && r.gov == e.gov && r.requestsProcessed == e.requestsProcessed
    ensures r.useSound == e.useSound && r.turbo == e.turbo && r.semExists == e.semExists
    ensures event.None? || event == Some(OtherEvent) ==> r == e
    ensures event.Some? && event.value.UserEvent? ==> r == e.(caption := Some(event.value.code))
    ensures Stops(event) ==> !r.running
    ensures event.Some? && event.value.KeyDown? && event.value.sym != SdlkEscape ==> r.running
    ensures r.resets == e.resets + (if event == Some(KeyDown(SdlkTab)) then 1 else 0)
    ensures r.caption == (if event.Some? && event.value.UserEvent? then Some(event.value.code) else e.caption)
  {
    match event
    case None => e
    case Some(UserEvent(code)) => e.(caption := Some(code))
    case Some(QuitEvent) => e.(running := false)
    case Some(KeyDown(sym)) =>
      var c := ControlUpdate(sym);
      e.(running := c.keepRunning, resets := e.resets + if c.reset then 1 else 0)
    case Some(OtherEvent) => e
  }

  /** Whether `Update` waits on the semaphore after rendering: not in turbo
      mode, only if the semaphore exists, and only on every third frame. */
  predicate WaitsAfter(e: Emulator, frames: nat)
  {
    !e.turbo && e.semExists && frames % FrameGovernor.WaitEvery == 0
  }

  /** What one call returns (`ret`), whether it waited on the semaphore, and
      the new state. */
  datatype Step = Step(ret: int, waited: bool, emu: Emulator)

  /** `Update`. While the debugger is paused only requests are processed and
      0 is returned. Otherwise the front end is marked running and one event
      is handled. Then one frame is rendered and its audio queued, the loop
      waits on the semaphore when due, requests are processed, and the
      running flag is returned: 0 after a Quit event or the Escape key,
      else 1.

      `trapped` says that the core hit a breakpoint while rendering the
      frame. Its hook then jumps back to the `setjmp` of this call, which
      processes requests and returns 0 at once: the frame is not counted,
      no audio is queued, and there is no wait. */
  function Update(e: Emulator, paused: bool, trapped: bool, event: Option<Event>, samples: seq<AudioBuffer.sample>): (r: Step)
    requires Valid(e)
    requires !paused && !trapped && e.useSound ==> e.sound.count + 2 * |samples| <= AudioBuffer.Capacity
    ensures Valid(r.emu)
    ensures r.emu.requestsProcessed == e.requestsProcessed + 1
    ensures paused ==> r.ret == 0 && !r.waited && r.emu == e.(requestsProcessed := e.requestsProcessed + 1)
    ensures !paused ==> var h := HandleEvent(e.(running := true), event);
      && r.emu.running == h.running && r.emu.caption == h.caption && r.emu.resets == h.resets
      && r.emu.useSound == e.useSound && r.emu.turbo == e.turbo && r.emu.semExists == e.semExists
    ensures !paused ==> (r.emu.running <==> !Stops(event))
    ensures !paused && trapped ==> r.ret == 0 && !r.waited && r.emu.gov == e.gov && r.emu.sound == e.sound
    ensures !paused && !trapped ==> (r.ret == 0 <==> Stops(event))
    ensures !paused && !trapped ==> (r.ret == 1 <==> r.emu.running) && (r.ret == 0 || r.ret == 1)
    ensures !paused && !trapped ==> (r.waited <==> WaitsAfter(e, (e.gov.frames + 1) % FrameGovernor.U32))
    ensures !paused && !trapped && r.waited ==> r.emu.gov.sem == if e.gov.sem > 0 then e.gov.sem - 1 else 0
    ensures !paused && !trapped && !r.waited ==> r.emu.gov == FrameGovernor.FrameRendered(e.gov)
    ensures !paused && !trapped && r.emu.gov.events == e.gov.events ==>
      r.emu.gov.frames == (e.gov.frames + 1) % FrameGovernor.U32
    ensures !paused && !trapped ==> r.emu.sound == AudioBuffer.Produce(e.sound, samples, e.useSound)
    ensures !paused && !trapped ==>
      (r.emu.gov == if r.waited then FrameGovernor.Wait(FrameGovernor.FrameRendered(e.gov))
                    else FrameGovernor.FrameRendered(e.gov))
  {
    if paused then
      Step(0, false, e.(requestsProcessed := e.requestsProcessed + 1))
    else
      var e1 := HandleEvent(e.(running := true), event);
      if trapped then
        Step(0, false, e1.(requestsProcessed := e1.requestsProcessed + 1))
      else
        var g := FrameGovernor.FrameRendered(e1.gov);
        var sound := AudioBuffer.Produce(e1.sound, samples, e1.useSound);
        var waits := WaitsAfter(e1, g.frames);
        var g' := if waits then FrameGovernor.Wait(g) else g;
        var e2 := e1.(gov := g', sound := sound, requestsProcessed := e1.requestsProcessed + 1);
        Step(if e2.running then 1 else 0, waits, e2)
  }

  /** `n` calls while the debugger stays paused. */
  function PausedUpdates(e: Emulator, n: nat): (r: Emulator)
    requires Valid(e)
    ensures Valid(r)
  {
    if n == 0 then e else Update(PausedUpdates(e, n - 1), true, false, None, []).emu
  }

  /** While paused no frame is rendered, no audio is queued and the
      governor does not move; only requests are processed. */
  lemma {:induction false} PausedUpdatesIdle(e: Emulator, n: nat)
    requires Valid(e)
    ensures PausedUpdates(e, n) == e.(requestsProcessed := e.requestsProcessed + n)
  {
    if n > 0 {
      PausedUpdatesIdle(e, n - 1);
    }
  }

  /** After a call that completed its frame, the editor sees the debugger
      active exactly when the call returned 1 and the core is then paused. */
  lemma DebuggingAfterUpdate(e: Emulator, event: Option<Event>, samples: seq<AudioBuffer.sample>, pausedLater: bool)
    requires Valid(e)
    requires e.useSound ==> e.sound.count + 2 * |samples| <= AudioBuffer.Capacity
    ensures var r := Update(e, false, false, event, samples);
      DebugRequests.IsDebugging(pausedLater, r.emu.running) <==> pausedLater && r.ret == 1
  {
  }

  /** A call cut short by a breakpoint returns 0, yet the front end is still
      running (unless the event stopped it), so the editor sees the debugger
      active once the core is paused. */
  lemma TrapReportsDebugging(e: Emulator, event: Option<Event>, samples: seq<AudioBuffer.sample>)
    requires Valid(e) && !Stops(event)
    ensures var r := Update(e, false, true, event, samples);
      r.ret == 0 && DebugRequests.IsDebugging(true, r.emu.running)
  {
  }

  /** The audio queued by a running call is the frame's samples, appended. */
  lemma UpdateQueuesAudio(e: Emulator, event: Option<Event>, samples: seq<AudioBuffer.sample>)
    requires Valid(e) && e.useSound
    requires e.sound.count + 2 * |samples| <= AudioBuffer.Capacity
    ensures AudioBuffer.Pending(Update(e, false, false, event, samples).emu.sound)
      == AudioBuffer.Pending(e.sound) + AudioBuffer.Encode(samples)
  {
    AudioBuffer.ProduceAppends(e.sound, samples);
  }
}

=== FILE: viewport.dfy ===
/** The blit rectangles `sdl_video_update` recomputes when the emulated
    viewport changes: the source rectangle covers the active area plus its
    borders, is clipped to the window surface and centred in the bitmap; the
    destination has the same size and is centred on the surface. A border
    may be negative (the Game Gear view crops the 256-pixel line to 160),
    but the bordered width and height are not, and every difference that is
    divided by 2 is non-negative, so C's truncating division agrees with
    Dafny's here. */
module Viewport {

  datatype Rect = Rect(x: int, y: int, w: int, h: int)

  /** `bitmap.viewport`: active size and border widths (negative borders
      crop the active area). */
  datatype View = View(x: int, y: int, w: int, h: int)

  datatype Layout = Layout(src: Rect, dst: Rect)

  /** One axis of the source rectangle: the offset and the length kept of a
      line of `full` pixels shown on `screen` pixels. */
  datatype Span = Span(offset: int, size: int)

  function ClipSpan(full: int, screen: int): (s: Span)
    requires 0 <= full && 0 <= screen
    ensures s.size == if full > screen then screen else full
    ensures 0 <= s.offset && s.offset + s.size <= full
    ensures 0 <= full - s.size - 2 * s.offset <= 1
  {
    if full > screen then Span((full - screen) / 2, screen) else Span(0, full)
  }

  /** Offset that centres `size` pixels on `screen` pixels. */
  function Centre(screen: int, size: int): (x: int)
    requires 0 <= size <= screen
    ensures 0 <= x && x + size <= screen
    ensures 0 <= screen - size - 2 * x <= 1
  {
    (screen - size) / 2
  }

  /** The rectangle arithmetic of `sdl_video_update` (source then
      destination). */
  function ComputeLayout(v: View, screenW: int, screenH: int): (l: Layout)
    requires 0 <= v.w + 2 * v.x && 0 <= v.h + 2 * v.y
    requires 0 <= screenW && 0 <= screenH
    ensures l.src.w == if v.w + 2 * v.x > screenW then screenW else v.w + 2 * v.x
    ensures l.src.h == if v.h + 2 * v.y > screenH then screenH else v.h + 2 * v.y
    ensures 0 <= l.src.x && l.src.x + l.src.w <= v.w + 2 * v.x
    ensures 0 <= l.src.y && l.src.y + l.src.h <= v.h + 2 * v.y
    ensures 0 <= (v.w + 2 * v.x) - l.src.w - 2 * l.src.x <= 1
    ensures 0 <= (v.h + 2 * v.y) - l.src.h - 2 * l.src.y <= 1
    ensures l.dst.w == l.src.w && l.dst.h == l.src.h
    ensures 0 <= l.dst.x && l.dst.x + l.dst.w <= screenW
    ensures 0 <= l.dst.y && l.dst.y + l.dst.h <= screenH
    ensures 0 <= screenW - l.dst.w - 2 * l.dst.x <= 1 && 0 <= screenH - l.dst.h - 2 * l.dst.y <= 1
  {
    var sx := ClipSpan(v.w + 2 * v.x, screenW);
    var sy := ClipSpan(v.h + 2 * v.y, screenH);
    Layout(Rect(sx.offset, sy.offset, sx.size, sy.size),
           Rect(Centre(screenW, sx.size), Centre(screenH, sy.size), sx.size, sy.size))
  }

  /** The flag test around it: bit 0 of `viewport.changed` asks for a new
      layout and is cleared; otherwise the previous layout stays. */
  function UpdateLayout(changed: bv8, prev: Layout, v: View, screenW: int, screenH: int): (r: (bv8, Layout))
    requires 0 <= v.w + 2 * v.x && 0 <= v.h + 2 * v.y
    requires 0 <= screenW && 0 <= screenH
    ensures r.0 & 1 == 0 && r.0 | 1 == changed | 1
    ensures changed & 1 == 0 ==> r == (changed, prev)
    ensures changed & 1 == 1 ==> r.1 == ComputeLayout(v, screenW, screenH)
  {
    if changed & 1 == 1 then (changed & !1, ComputeLayout(v, screenW, screenH)) else (changed, prev)
  }

  /** The Game Gear view (a 256x192 line with borders of -48 and -24) on a
      640x480 surface: a 160x144 source at the bitmap's origin, centred on
      the surface. */
  lemma GameGearLayout()
    ensures ComputeLayout(View(-48, -24, 256, 192), 640, 480)
      == Layout(Rect(0, 0, 160, 144), Rect(240, 168, 160, 144))
  {
  }
}
